=== FILE: README.md ===
# Stock counter ledger, modelled in Dafny

This project models the core of a chat bot that keeps inventory counts and
prices of "stock" items in a document store. It then proves properties of that model.

- **Ledger** (`ledger.dfy`). The `'stocks'` collection is a `map<string, Record>` from
  document id to `{group, detail, count, price}`. Add, increment and
  decrease return the new store together with the `Stock` they return or the
  error they raise. Remove returns the new store. Get returns the `Stock` or the
  error. List returns the stocks in an unspecified order. Increment is strict: it
  raises when `count + delta > 9000000000000000`. Decrease clamps a count
  that would go below zero instead of raising; like increment, it raises when
  the document is missing.
- **Stock record** (`stocks.dfy`). This is the `Stock` dataclass. Every field except `count`
  defaults to `None`, so those fields are `Option`s.
- **Orderings** (`sorting.dfy`, `stock_sorts.dfy`). The model has a stable insertion sort by
  key, and Python's string order proved to be a strict total order. The three
  stock sorts use them: count descending, price descending and group ascending. Python
  raises `TypeError` when it compares `None`, and a comparison sort of two or more
  elements compares every element. So the price and group sorts fail exactly
  when there are at least two stocks and one of them lacks the key.
- **Sales** (`sales.dfy`). The sales dict is an insertion-ordered association list with
  Python's assignment semantics. The model covers the per-item revenue `count * price` under
  `'{group} ({detail})'`, the total of the dict's values, and the listing that
  leaves the `'total_sales'` entry out.
- **Display card** (`decimal.dfy`, `embeds.dfy`). Python's `str(int)` and a reader for it
  are modelled. The card holds a title, a description and a footer. Readers recover the count,
  the revenue and the price from the rendered text. The footer is the stock id.
- **Singleton cache** (`singleton.dfy`). Each class maps to the first instance successfully built for it. The constructor's outcome is a parameter; a constructor that raises leaves the cache as it was.
- **Translator** (`translator.dfy`). This is the two-level table lookup of
  `CommandsTranslator.translate`, with the two tables as written.
- **Binding** (`binding.dfy`). These are cross-component lemmas. A listing always sorts and
  sums without failing. A card's buttons update the stock the card shows.

`generate_id` is a deterministic function of one string whose internals
are a foreign library. It is a parameter `idOf: string -> string` of
`AddStock`, so equal inputs give equal ids by construction. `GetEmbed` is a
Dafny function, so equal arguments give equal cards by construction.

Details of `db_manager.py` the model keeps:

- The ceiling is `9000000000000000`, compared with a strict `>`, so a count of
  exactly the ceiling is accepted. Starting from 0, incrementing by the whole
  ceiling succeeds (`Ledger.Scenario`).
- The document id is derived from the concatenation `group + detail`. So
  `("ab", "c")` and `("a", "bc")` share one document
  (`Ledger.DistinctPairsCanCollide`).
- Neither `increment_stock` nor `decrease_stock` checks the sign of its amount.
  Counts stay in `[0, ceiling]` only for non-negative amounts, which is all the
  buttons use (`Ledger.OperationsKeepCountsInRange`,
  `Ledger.NegativeAmountsEscapeTheRange`).
- Reading a missing document yields `None`, and subscripting it raises a
  `TypeError`; the model calls that fault `NotFound`. An empty id takes the
  store's whole-collection branch: the operation then raises (a `KeyError`, or a
  `TypeError` when a document with the id `count` exists) before any write, and
  the model reports `NotFound` with the store unchanged. `get_stock` has its own
  corner, listed under "## Left out".

## Model

| member | source | states |
|---|---|---|
| Stocks.DefaultStock | src/utils.py:21-27 | a `Stock()` has count 0 and detail, group, stock id and price all `None` |
| Ledger.Fetch | src/db_manager.py:21-23 | a point read finds a record exactly when the id is non-empty and stored, and then it is the stored value |
| Ledger.Write | src/db_manager.py:18-19 | `set` overwrites the whole document under the id, keeps every other document, and the returned stock mirrors what was written |
| Ledger.StockOf | src/db_manager.py:88-94 | the `Stock` built from a document carries the document id and the stored group, detail, count and price |
| Ledger.IncrementStock | src/db_manager.py:29-44 | a missing document fails with the store unchanged; `count + delta > 9000000000000000` fails with the store unchanged; otherwise only that document's count becomes `count + delta`, group, detail and price carry through, no key is added or lost, and the returned stock is the record written |
| Ledger.DecreaseStock | src/db_manager.py:46-61 | a missing document fails with the store unchanged; otherwise it never fails, the new count is `max(0, count - delta)`, nothing else changes, and the returned stock is the record written |
| Ledger.AddStock | src/db_manager.py:63-81 | writes `{group, detail, 0, price}` under `generate_id(group + detail)`, overwriting whatever was there, leaves other documents alone, and returns that stock with its id |
| Ledger.RemoveStock | src/db_manager.py:83-84 | the id is absent afterwards and every other document is untouched, whether or not the id was present |
| Ledger.GetStock | src/db_manager.py:86-94 | succeeds exactly when the id is non-empty and stored, returning its fields and the id; otherwise fails |
| Ledger.GetAllStock | src/db_manager.py:96-110 | returns one `Stock` per stored document, with distinct ids, each carrying the document key and the stored fields |
| Ledger.AddThenGet | src/db_manager.py:63-94 | after adding `(g, d, p)`, getting the derived id returns count 0, group g, detail d, price p |
| Ledger.GetAbsentFails | src/db_manager.py:86-94 | getting an id that is not stored fails |
| Ledger.IncrementAtCeilingFails | src/db_manager.py:32-33 | a count at the ceiling incremented by at least 1 raises and the store is unchanged |
| Ledger.IncrementOntoCeilingSucceeds | src/db_manager.py:32-37 | an increment landing exactly on the ceiling succeeds |
| Ledger.RemoveIdempotent | src/db_manager.py:83-84 | removing twice equals removing once |
| Ledger.EqualConcatenationsCollide | src/db_manager.py:64-74 | two adds with equal `group + detail` return the same id, and the second overwrites the first with count 0 |
| Ledger.DistinctPairsCanCollide | src/db_manager.py:64 | `("ab", "c")` and `("a", "bc")` land on one document, holding the later add |
| Ledger.OperationsKeepCountsInRange | src/db_manager.py:29-84 | with non-negative amounts, add, increment, decrease and remove keep every count in `[0, 9000000000000000]` |
| Ledger.NegativeAmountsEscapeTheRange | src/db_manager.py:32-52 | a negative increment succeeds below zero and a negative decrease succeeds past the ceiling |
| Ledger.Scenario | src/db_manager.py:29-81 | add a priced item, then +5, then -8, gives counts 0, 5, 0 without error; +ceiling from 0 succeeds; +ceiling+1 raises with count still 0 |
| Sorting.SortBy | src/main.py:105-112 | the result is a permutation of the input, sorted by the key order, and elements with equal keys keep their input order |
| Sorting.SortIdempotent | src/main.py:105-112 | sorting a sorted result again changes nothing |
| Sorting.StrLessIsStrictTotalOrder | src/main.py:111-112 | Python's code-point string order is irreflexive, transitive and total |
| StockSorts.SortStocksByCount | src/main.py:105-106 | a permutation with counts non-increasing, stable among equal counts |
| StockSorts.SortStocksByPrice | src/main.py:108-109 | fails exactly when two or more stocks include one without a price; otherwise a permutation with prices non-increasing, stable among equal prices |
| StockSorts.SortStocksByGroup | src/main.py:111-112 | fails exactly when two or more stocks include one without a group; otherwise a permutation with groups lexicographically non-decreasing, stable among equal groups |
| Sales.Put | src/main.py:181 | after `d[k] = v`, `k` maps to `v`, every other key keeps its value, and the key set gains `k` |
| Sales.PutKeepsOrder | src/main.py:181 | an existing key keeps its position, a new key is appended, and keys stay distinct |
| Sales.SalesKey | src/main.py:181 | the key `'{group} ({detail})'` is three characters longer than the two rendered fields together and always ends in `)` |
| Sales.Revenue | src/main.py:179-181 | fails exactly when some stock has no price; otherwise its keys are exactly the stocks' `'{group} ({detail})'` keys, each once |
| Sales.RevenueKeepsLast | src/main.py:179-181 | each key holds `count * price` of the last stock producing it |
| Sales.SalesKeyIsNotTotalKey | src/main.py:181-185 | no per-item key equals `'total_sales'`, so inserting the total never overwrites an item |
| Sales.Sum | src/main.py:184 | `sum(sales.values())`: with non-negative values the sum is non-negative and at least every single value |
| Sales.Listing | src/main.py:188 | the comprehension's `if key != 'total_sales'` filter: no listed key is the total's, and the listing is no longer than the dict |
| Sales.ListingKeepsItems | src/main.py:188 | an entry is listed exactly when it is in the dict and its key is not `'total_sales'` |
| Sales.CalcTotalSales | src/main.py:179-188 | the listed items are the revenue map without the total entry, and the total is the sum of their values |
| Sales.TotalIsGrossWhenKeysDistinct | src/main.py:179-184 | when no two stocks share a key, the total is the sum of `count * price` over all stocks |
| Sales.CollidingKeysShareOneEntry | src/main.py:179-181 | two distinct documents can render the same key, and the later stock's assignment replaces the earlier value |
| Sales.CollidingKeysDropEarlierRevenue | src/main.py:179-184 | two distinct documents rendering the same key contribute only the later revenue (5, not 25) |
| Decimal.Str | src/embed_manager.py:9-10 | `str(n)` of an `int` is non-empty, starts with `-` exactly when `n` is negative, and is digits after that |
| Decimal.ReadStr | src/embed_manager.py:9-10 | reading back `str(n)` gives `n` |
| Decimal.StrInjective | src/embed_manager.py:10 | distinct integers render as distinct strings |
| Embeds.GetEmbed | src/embed_manager.py:7-16 | the footer is the id; the title is the detail when the price is 0 and otherwise is exactly `group（detail） -  ¥` followed by `str(price)`, whose text after the last `¥` reads back as the price; the description reads back as `(count, count * price)` |
| Embeds.DescriptionRoundTrip | src/embed_manager.py:10 | the description reads back as the count and the revenue |
| Embeds.TitlePriceRoundTrip | src/embed_manager.py:9 | a priced title reads back the price after its last `¥` |
| Embeds.DescriptionIgnoresTitle | src/embed_manager.py:9-10 | the description is the same whatever the detail, group and id, so it does not depend on the title branch |
| Singleton.Call | src/utils.py:11-14 | a cached class returns its instance and the cache is unchanged; an uncached class with a constructor that returns caches and returns that instance; a constructor that raises propagates its error and leaves the cache exactly as it was; cached classes always keep their instances |
| Singleton.AllCallsReturnFirst | src/utils.py:11-14 | constructions of an uncached class raise their constructors' errors until the first that succeeds; that one and every later construction return the instance it built, ignoring later arguments |
| Singleton.RunKeepsCached | src/utils.py:11-14 | any sequence of constructions never replaces or drops a cached instance |
| Singleton.RunCachesOnlySuccesses | src/utils.py:12-13 | a class enters the cache only through a construction whose constructor returned |
| Translator.Translate | src/utils.py:118-124 | returns `table[locale][message]` exactly when both keys are present, `None` otherwise |
| Translator.OtherLocalesUntranslated | src/utils.py:118-124 | locales other than `ja` and `en-US` translate nothing |
| Translator.EnglishIsIdentity | src/utils.py:96-115 | every English key translates to itself |
| Translator.TablesShareKeys | src/utils.py:76-115 | the `ja` and `en-US` tables have the same keys |
| Translator.SortDescriptionsUntranslated | src/main.py:200-272 | the five other registered descriptions translate in `ja`, but the three sort descriptions translate to `None` in every locale |
| Translator.IntendedDescriptionsTranslate | src/utils.py:91-93 | with the sort descriptions spelled as the tables spell them, every description translates in `ja` and to itself in `en-US` |
| Binding.ListingIsSortableAndSummable | src/db_manager.py:96-110 | a listing of the store never makes the price sort, the group sort or the sales total fail |
| Binding.IncreaseButtonUpdatesRenderedStock | src/view_manager.py:15-17 | increment by 1 on a card's footer id updates that document to `count + 1` (or raises at the ceiling), and the re-rendered description shows the new count and revenue |
| Binding.DecreaseButtonUpdatesRenderedStock | src/view_manager.py:34-36 | decrease by 1 on a card's footer id never fails, sets that document to `max(0, count - 1)`, and the re-rendered description shows it |
| Binding.AddedCard | src/main.py:131-142 | the card of a just-added stock has the derived id as footer, the detail as title when the price is 0, otherwise the price in the title, and count and revenue 0 |

## Left out

- The document-store driver and credential bootstrap (src/db_manager.py:12-16), transport errors and timeouts: the store is a map.
- Concurrency: the lost update between two interleaved read-modify-writes on one document. The model is sequential.
- The UUIDv5 and SHA-1 internals of `generate_id`: it is the parameter `idOf`.
- The chat client: command registration, message-history purging, `asyncio.sleep` pacing, message sending, and the text of the `get_all_stocks` reply and of the sales message (src/main.py:165, 188-197).
- The button callbacks beyond their id round trip and count update, which the `Binding` lemmas cover.
- The colour helpers, logging constants, the card colour and the module's `__main__` print: cosmetic.
- A `None` price reaching `get_embed` or the store: prices there are `int`.
- Ledger.IncrementStock: takes the two fields of its `Stock` argument it reads (`stock_id`, `count`) as a `string` and an `int`. A `stock_id` of `None` is falsy and behaves like the empty id: the operation raises before any write and the store is unchanged, which is what the model gives for `""`.
- Ledger.DecreaseStock: takes `stock_id` and `count` the same way; a `None` id is covered by the empty id in the same way.
- Ledger.AddStock: takes `group`, `detail` and an `int` price; a `None` group or detail, which would raise on concatenation, is not modelled.
- Ledger.GetStock: with an empty id `get_stock` subscripts the whole collection; if documents with the ids `detail`, `count`, `price` and `group` all exist it builds a `Stock` out of whole documents instead of failing. The model reports failure.
- Ledger.RemoveStock: the store's own rejection of an empty document id is not modelled; removal is plain map removal.

## Findings

| source | as written | input that shows it | evidently intended | confidence | as-written member | corrected member |
|---|---|---|---|---|---|---|
| src/main.py:202 | the sort commands register the descriptions `'Sort stocks by count.'`, `'Sort stocks by price.'`, `'Sort stocks by group.'` (lines 202, 237, 272), which are not keys of the translator tables | locale `ja`, message `'Sort stocks by count.'` translates to `None`, so the English text is shown | the table keys `'Sort all stocks by count.'` etc. (src/utils.py:91-93), which carry Japanese translations | not executed | Translator.SortDescriptionsUntranslated | Translator.IntendedDescriptionsTranslate |

=== FILE: binding.dfy ===
/**
  How the pieces meet: the ledger's listing feeds the sorts and the sales
  total, and a rendered card carries the id its buttons use to update the
  stock it shows.
*/
module Binding {
  import opened Fallible
  import opened Stocks
  import opened Ledger
  import opened StockSorts
  import opened Sales
  import opened Embeds

  /** The card the bot renders for a stored document. */
  function CardOf(id: string, rec: Record): Embed {
    GetEmbed(rec.detail, rec.count, id, rec.price, rec.group)
  }

  /** A stock listed by `get_all_stock` has every field, so the price and group
      sorts and the sales total never meet a `None`. */
  lemma ListingIsSortableAndSummable(store: Store, listing: seq<Stock>)
    requires IsListing(listing, store)
    ensures SortStocksByPrice(listing).Success?
    ensures SortStocksByGroup(listing).Success?
    ensures CalcTotalSales(listing).Success?
  {
    assert forall i :: 0 <= i < |listing| ==> Complete(listing[i]);
  }

  /** The buttons read the footer back as the stock id: pressing "increase" on
      the card of a stored document adds one to that document's count, unless
      that would pass the ceiling, and the card re-rendered from the result
      shows the new count and revenue. */
  lemma IncreaseButtonUpdatesRenderedStock(store: Store, id: string)
    requires id != "" && id in store
    ensures var rec := store[id];
            var up := IncrementStock(store, CardOf(id, rec).footer, 1);
            && (rec.count + 1 <= MaxCount ==>
                  && up.result.Success?
                  && up.result.value.stockId == Some(id)
                  && up.store[id] == rec.(count := rec.count + 1)
                  && ReadDescription(CardOf(id, up.store[id]).description)
                     == Some((rec.count + 1, (rec.count + 1) * rec.price)))
            && (rec.count + 1 > MaxCount ==> up == Outcome(store, Failure(CountTooHigh)))
  {
    var rec := store[id];
    assert CardOf(id, rec).footer == id;
    var up := IncrementStock(store, id, 1);
    if rec.count + 1 <= MaxCount {
      assert up.store[id] == rec.(count := rec.count + 1);
      var card := CardOf(id, up.store[id]);
      assert ReadDescription(card.description) == Some((rec.count + 1, (rec.count + 1) * rec.price));
    }
  }

  /** Pressing "decrease" on the card of a stored document takes one off that
      document's count, floored at zero, and never fails. */
  lemma DecreaseButtonUpdatesRenderedStock(store: Store, id: string)
    requires id != "" && id in store
    ensures var rec := store[id];
            var down := DecreaseStock(store, CardOf(id, rec).footer, 1);
            var count := if rec.count - 1 < 0 then 0 else rec.count - 1;
            && down.result.Success?
            && down.result.value.stockId == Some(id)
            && down.store[id] == rec.(count := count)
            && ReadDescription(CardOf(id, down.store[id]).description) == Some((count, count * rec.price))
  {
    var rec := store[id];
    assert CardOf(id, rec).footer == id;
    var count := if rec.count - 1 < 0 then 0 else rec.count - 1;
    var down := DecreaseStock(store, id, 1);
    assert down.store[id] == rec.(count := count);
    var card := CardOf(id, down.store[id]);
    assert ReadDescription(card.description) == Some((count, count * rec.price));
  }

  /** The card of a freshly added stock: count 0, the bare detail as title when
      the price is 0, and the derived id in the footer. */
  lemma AddedCard(store: Store, idOf: string -> string, group: string, detail: string, price: int)
    ensures var added := AddStock(store, idOf, group, detail, price);
            var id := idOf(group + detail);
            var card := CardOf(id, added.store[id]);
            && card.footer == id
            && (price == 0 ==> card.title == detail)
            && (price != 0 ==> PriceInTitle(card.title) == Some(price))
            && ReadDescription(card.description) == Some((0, 0))
  {
  }
}

=== FILE: decimal.dfy ===
/** Python's `str(n)` for integers, and a reader that recovers `n` from it. */
module Decimal {
  import opened Fallible

  const Digits: string := "0123456789"

  predicate IsDigit(c: char) {
    '0' <= c <= '9'
  }

  /** A character that can occur in `str(n)`: a digit or the minus sign. */
  predicate IsNumeric(c: char) {
    IsDigit(c) || c == '-'
  }

  /** The decimal digits of a natural number, most significant first. */
  function NatDigits(n: nat): (s: string)
    ensures |s| >= 1
    ensures forall i :: 0 <= i < |s| ==> IsDigit(s[i])
  {
    if n < 10 then [Digits[n]]
    else NatDigits(n / 10) + [Digits[n % 10]]
  }

  /** `str(n)`: a minus sign before the digits of a negative number. */
  function Str(n: int): (s: string)
    ensures |s| >= 1
    ensures forall i :: 0 <= i < |s| ==> IsNumeric(s[i])
    ensures s[0] == '-' <==> n < 0
    ensures forall i :: 1 <= i < |s| ==> IsDigit(s[i])
  {
    if n < 0 then "-" + NatDigits(-n) else NatDigits(n)
  }

  /** The value of a non-empty run of decimal digits. */
  function ReadNat(s: string): (r: Option<nat>)
    ensures r.Some? <==> |s| >= 1 && forall i :: 0 <= i < |s| ==> IsDigit(s[i])
  {
    if s == [] || !IsDigit(s[|s| - 1]) then None
    else if |s| == 1 then Some((s[0] - '0') as nat)
    else
      match ReadNat(s[..|s| - 1])
      case None => None
      case Some(m) => Some(m * 10 + (s[|s| - 1] - '0') as nat)
  }

  /** The value of an optional minus sign followed by digits. */
  function ReadInt(s: string): Option<int>
  {
    if |s| >= 1 && s[0] == '-' then
      match ReadNat(s[1..])
      case None => None
      case Some(m) => Some(-(m as int))
    else
      match ReadNat(s)
      case None => None
      case Some(m) => Some(m)
  }

  lemma {:induction false} ReadNatDigits(n: nat)
    ensures ReadNat(NatDigits(n)) == Some(n)
  {
    if n >= 10 {
      var s := NatDigits(n);
      assert s[..|s| - 1] == NatDigits(n / 10);
      ReadNatDigits(n / 10);
    }
  }

  /** Reading back `str(n)` gives `n`. */
  lemma ReadStr(n: int)
    ensures ReadInt(Str(n)) == Some(n)
  {
    if n < 0 {
      ReadNatDigits(-n);
      assert Str(n)[1..] == NatDigits(-n);
    } else {
      ReadNatDigits(n);
    }
  }

  /** `str` is injective on integers. */
  lemma StrInjective(a: int, b: int)
    requires Str(a) == Str(b)
    ensures a == b
  {
    ReadStr(a);
    ReadStr(b);
  }

  /** Splits off the longest prefix of numeric characters. */
  function SplitNumber(s: string): (r: (string, string))
    ensures r.0 + r.1 == s
    ensures forall i :: 0 <= i < |r.0| ==> IsNumeric(r.0[i])
    ensures r.1 == [] || !IsNumeric(r.1[0])
  {
    if s == [] || !IsNumeric(s[0]) then ([], s)
    else
      var (a, b) := SplitNumber(s[1..]);
      assert [s[0]] + a + b == s;
      ([s[0]] + a, b)
  }

  /** A numeric run followed by a non-numeric character splits exactly there. */
  lemma {:induction false} SplitNumberAt(a: string, b: string)
    requires forall i :: 0 <= i < |a| ==> IsNumeric(a[i])
    requires b == [] || !IsNumeric(b[0])
    ensures SplitNumber(a + b) == (a, b)
  {
    if a != [] {
      assert (a + b)[1..] == a[1..] + b;
      SplitNumberAt(a[1..], b);
      assert a == [a[0]] + a[1..];
    } else {
      assert a + b == b;
    }
  }
}

=== FILE: embeds.dfy ===
/**
  The display card of `embed_manager.py`: a title, a description carrying the
  count and the revenue, and a footer carrying the stock id, which the card's
  buttons later read back as the id to update.
*/
module Embeds {
  import opened Fallible
  import Decimal

  /** The parts of a card the model keeps; the colour is left out. */
  datatype Embed = Embed(title: string, description: string, footer: string)

  const CountLabel: string := "個数: **"
  const RevenueLabel: string := "**個\n売上: **"
  const Closing: string := "**円"

  /** `detail` alone for an item without a price (Python treats 0 as false),
      otherwise `'{group}（{detail}） -  ¥{price}'`. */
  function Title(detail: string, price: int, group: string): string {
    if price == 0 then detail
    else group + "（" + detail + "） -  ¥" + Decimal.Str(price)
  }

  /** `'個数: **{count}**個\n売上: **{count * price}**円'`. */
  function Description(count: int, price: int): string {
    CountLabel + Decimal.Str(count) + RevenueLabel + Decimal.Str(count * price) + Closing
  }

  /** Reads `prefix` and then an integer off the front of `s`, returning the
      integer and what follows it. */
  function ReadField(prefix: string, s: string): Option<(int, string)> {
    if !(prefix <= s) then None
    else
      var split := Decimal.SplitNumber(s[|prefix|..]);
      match Decimal.ReadInt(split.0)
      case None => None
      case Some(n) => Some((n, split.1))
  }

  /** Reads the count and the revenue back out of a description. */
  function ReadDescription(d: string): Option<(int, int)> {
    match ReadField(CountLabel, d)
    case None => None
    case Some((count, rest)) =>
      match ReadField(RevenueLabel, rest)
      case None => None
      case Some((revenue, tail)) => if tail == Closing then Some((count, revenue)) else None
  }

  /** The text after the last `¥` of a title, if it has one. */
  function AfterLastYen(t: string): Option<string> {
    if t == [] then None
    else if t[|t| - 1] == '¥' then Some([])
    else
      match AfterLastYen(t[..|t| - 1])
      case None => None
      case Some(s) => Some(s + [t[|t| - 1]])
  }

  /** The price a title shows, read from its end. */
  function PriceInTitle(t: string): Option<int> {
    match AfterLastYen(t)
    case None => None
    case Some(s) => Decimal.ReadInt(s)
  }

  /** `get_embed`. */
  function GetEmbed(detail: string, count: int, id: string, price: int, group: string): (e: Embed)
    ensures e.footer == id
    ensures price == 0 ==> e.title == detail
    ensures price != 0 ==> PriceInTitle(e.title) == Some(price)
    ensures price != 0 ==> group + "（" + detail + "） -  ¥" <= e.title
    ensures price != 0 ==> e.title == group + "（" + detail + "） -  ¥" + Decimal.Str(price)
    ensures ReadDescription(e.description) == Some((count, count * price))
  {
    DescriptionRoundTrip(count, price);
    TitlePriceRoundTrip(detail, price, group);
    Embed(Title(detail, price, group), Description(count, price), id)
  }

  lemma DescriptionRoundTrip(count: int, price: int)
    ensures ReadDescription(Description(count, price)) == Some((count, count * price))
  {
    var tail := RevenueLabel + Decimal.Str(count * price) + Closing;
    assert Description(count, price) == CountLabel + Decimal.Str(count) + tail;
    assert tail[0] == '*';
    ReadFilledField(CountLabel, count, tail);
    assert Closing[0] == '*';
    ReadFilledField(RevenueLabel, count * price, Closing);
  }

  lemma ReadFilledField(prefix: string, n: int, rest: string)
    requires rest == [] || !Decimal.IsNumeric(rest[0])
    ensures ReadField(prefix, prefix + Decimal.Str(n) + rest) == Some((n, rest))
  {
    var s := prefix + Decimal.Str(n) + rest;
    assert prefix <= s;
    assert s[|prefix|..] == Decimal.Str(n) + rest;
    Decimal.SplitNumberAt(Decimal.Str(n), rest);
    Decimal.ReadStr(n);
  }

  lemma {:induction false} AfterLastYenOfSuffix(prefix: string, s: string)
    requires forall i :: 0 <= i < |s| ==> s[i] != '¥'
    ensures AfterLastYen(prefix + ['¥'] + s) == Some(s)
  {
    var t := prefix + ['¥'] + s;
    if s != [] {
      assert t[..|t| - 1] == prefix + ['¥'] + s[..|s| - 1];
      AfterLastYenOfSuffix(prefix, s[..|s| - 1]);
      assert s[..|s| - 1] + [s[|s| - 1]] == s;
    }
  }

  lemma TitlePriceRoundTrip(detail: string, price: int, group: string)
    ensures price != 0 ==> PriceInTitle(Title(detail, price, group)) == Some(price)
  {
    if price == 0 {
      return;
    }
    var digits := Decimal.Str(price);
    var prefix := group + "（" + detail + "） -  ";
    assert Title(detail, price, group) == prefix + ['¥'] + digits;
    assert forall i :: 0 <= i < |digits| ==> digits[i] != '¥' by {
      forall i | 0 <= i < |digits| ensures digits[i] != '¥' {
        assert Decimal.IsNumeric(digits[i]);
      }
    }
    AfterLastYenOfSuffix(prefix, digits);
    Decimal.ReadStr(price);
  }

  /** The description depends on the count and the price only, not on which
      title branch is taken. */
  lemma DescriptionIgnoresTitle(detail1: string, group1: string, id1: string,
                                detail2: string, group2: string, id2: string,
                                count: int, price: int)
    ensures GetEmbed(detail1, count, id1, price, group1).description
         == GetEmbed(detail2, count, id2, price, group2).description
  {
  }
}

=== FILE: fallible.dfy ===
/** The two ways a step of the bot can come out empty-handed: a Python value
    that may be `None`, and a call that may raise. */
module Fallible {

  /** A Python value that may be `None`. */
  datatype Option<+T> = None | Some(value: T)

  /** A call that either returns `value` or raises `error`. */
  datatype Result<+R, +E> = Success(value: R) | Failure(error: E)
}

=== FILE: ledger.dfy ===
/**
  The stock ledger of `db_manager.py`: the `'stocks'` collection as a map from
  document id to stored value, and the read-modify-write operations over it.
  The document store's `set`, `get` and `delete` become map update, lookup and
  removal; every operation returns the new store together with what
  `db_manager.py` returns or raises.
*/
module Ledger {
  import opened Fallible
  import opened Stocks

  /** The ceiling `increment_stock` enforces. A count equal to it is still accepted. */
  const MaxCount: int := 9000000000000000

  /** The stored value of one document: `{group, detail, count, price}`. */
  datatype Record = Record(group: string, detail: string, count: int, price: int)

  /** The `'stocks'` collection, keyed by document id. */
  type Store = map<string, Record>

  /** What a ledger operation raises. `NotFound` is the fault of subscripting a
      read that yielded no document; `CountTooHigh` is the `ValueError` of an
      increment past `MaxCount`. */
  datatype Error = NotFound | CountTooHigh

  /** The store after an operation, and the stock returned or the error raised. */
  datatype Outcome = Outcome(store: Store, result: Result<Stock, Error>)

  /** The `Stock(...)` the ledger builds from a document id and its stored value. */
  function StockOf(id: string, rec: Record): (s: Stock)
    ensures Complete(s) && s.stockId == Some(id)
    ensures s.group == Some(rec.group) && s.detail == Some(rec.detail)
    ensures s.count == rec.count && s.price == Some(rec.price)
  {
    Stock(Some(rec.detail), Some(rec.group), Some(id), rec.count, Some(rec.price))
  }

  /** The store's `get` with a document id. A missing document reads as `None`,
      whose subscript raises a `TypeError`. An empty id is falsy, so `get` falls
      back to the whole-collection branch, whose result is keyed by document id:
      the ledger operation then raises (a `KeyError`, or a `TypeError` when a
      document with the id `count` exists) before any write. */
  function Fetch(store: Store, id: string): (r: Option<Record>)
    ensures r.Some? <==> id != "" && id in store
    ensures r.Some? ==> r.value == store[id]
  {
    if id != "" && id in store then Some(store[id]) else None
  }

  /** The store's `set` of a whole document, and the `Stock` built from it. */
  function Write(store: Store, id: string, rec: Record): (r: Outcome)
    ensures r.store.Keys == store.Keys + {id}
    ensures id in r.store && r.store[id] == rec
    ensures forall k :: k in store && k != id ==> r.store[k] == store[k]
    ensures r.result == Success(StockOf(id, rec))
  {
    Outcome(store[id := rec], Success(StockOf(id, rec)))
  }

  /** `increment_stock`: the strict half of the ledger. A result above
      `MaxCount` raises before anything is written. */
  function IncrementStock(store: Store, id: string, delta: int): (r: Outcome)
    ensures Fetch(store, id).None? ==> r == Outcome(store, Failure(NotFound))
    ensures id != "" && id in store && store[id].count + delta > MaxCount ==>
              r == Outcome(store, Failure(CountTooHigh))
    ensures id != "" && id in store && store[id].count + delta <= MaxCount ==>
              && r.store.Keys == store.Keys
              && r.store[id] == store[id].(count := store[id].count + delta)
              && (forall k :: k in store && k != id ==> r.store[k] == store[k])
              && r.result == Success(StockOf(id, r.store[id]))
  {
    match Fetch(store, id)
    case None => Outcome(store, Failure(NotFound))
    case Some(current) =>
      if current.count + delta > MaxCount then Outcome(store, Failure(CountTooHigh))
      else Write(store, id, current.(count := current.count + delta))
  }

  /** `decrease_stock`: the permissive half of the ledger. A result below zero
      is clamped to zero instead of raising. */
  function DecreaseStock(store: Store, id: string, delta: int): (r: Outcome)
    ensures Fetch(store, id).None? ==> r == Outcome(store, Failure(NotFound))
    ensures id != "" && id in store ==>
              && r.result.Success?
              && r.store.Keys == store.Keys
              && id in r.store
              && r.store[id].count >= 0
              && r.store[id].count >= store[id].count - delta
              && (r.store[id].count == 0 || r.store[id].count == store[id].count - delta)
              && r.store[id] == store[id].(count := r.store[id].count)
              && (forall k :: k in store && k != id ==> r.store[k] == store[k])
              && r.result == Success(StockOf(id, r.store[id]))
  {
    match Fetch(store, id)
    case None => Outcome(store, Failure(NotFound))
    case Some(current) =>
      var count := if current.count - delta < 0 then 0 else current.count - delta;
      Write(store, id, current.(count := count))
  }

  /** `add_stock`: writes a fresh record with count 0 under the id derived from
      `group + detail`, whatever was stored there before. `idOf` stands for
      `generate_id`, a deterministic function of one string. */
  function AddStock(store: Store, idOf: string -> string, group: string, detail: string, price: int): (r: Outcome)
    ensures r.store.Keys == store.Keys + {idOf(group + detail)}
    ensures r.store[idOf(group + detail)] == Record(group, detail, 0, price)
    ensures forall k :: k in store && k != idOf(group + detail) ==> r.store[k] == store[k]
    ensures r.result.Success?
    ensures r.result.value.stockId == Some(idOf(group + detail))
    ensures r.result.value.count == 0
    ensures r.result.value.group == Some(group) && r.result.value.detail == Some(detail)
    ensures r.result.value.price == Some(price)
  {
    Write(store, idOf(group + detail), Record(group, detail, 0, price))
  }

  /** `remove_stock`: deletes the document, present or not. */
  function RemoveStock(store: Store, id: string): (r: Store)
    ensures id !in r
    ensures forall k :: k != id ==> (k in r <==> k in store)
    ensures forall k :: k in r ==> r[k] == store[k]
  {
    store - {id}
  }

  /** `get_stock`: the stored value under `id`, as a `Stock` carrying that id. */
  function GetStock(store: Store, id: string): (r: Result<Stock, Error>)
    ensures r.Success? <==> id != "" && id in store
    ensures r.Failure? ==> r.error == NotFound
    ensures r.Success? ==> Complete(r.value) && r.value.stockId == Some(id)
    ensures r.Success? ==> r.value.group == Some(store[id].group) && r.value.detail == Some(store[id].detail)
    ensures r.Success? ==> r.value.count == store[id].count && r.value.price == Some(store[id].price)
  {
    match Fetch(store, id)
    case None => Failure(NotFound)
    case Some(rec) => Success(StockOf(id, rec))
  }

  /** `r` holds exactly one `Stock` per stored document, carrying the document's
      id and the fields of its stored value, in some order. */
  ghost predicate IsListing(r: seq<Stock>, store: Store) {
    && |r| == |store|
    && (forall i :: 0 <= i < |r| ==>
          r[i].stockId.Some? && r[i].stockId.value in store
          && r[i] == StockOf(r[i].stockId.value, store[r[i].stockId.value]))
    && (forall i, j :: 0 <= i < j < |r| ==> r[i].stockId != r[j].stockId)
    && (forall k :: k in store ==> exists i :: 0 <= i < |r| && r[i].stockId == Some(k))
  }

  /** `get_all_stock`: one `Stock` per document of the collection. The store
      streams its documents in an order it chooses, so the order is left open. */
  method GetAllStock(store: Store) returns (r: seq<Stock>)
    ensures IsListing(r, store)
  {
    r := [];
    var pending := store.Keys;
    while pending != {}
      invariant pending <= store.Keys
      invariant |r| + |pending| == |store.Keys|
      invariant forall i :: 0 <= i < |r| ==>
                  r[i].stockId.Some? && r[i].stockId.value in store && r[i].stockId.value !in pending
                  && r[i] == StockOf(r[i].stockId.value, store[r[i].stockId.value])
      invariant forall i, j :: 0 <= i < j < |r| ==> r[i].stockId != r[j].stockId
      invariant forall k :: k in store && k !in pending ==> exists i :: 0 <= i < |r| && r[i].stockId == Some(k)
      decreases pending
    {
      var id :| id in pending;
      var before := r;
      r := r + [StockOf(id, store[id])];
      pending := pending - {id};
      forall k | k in store && k !in pending
        ensures exists i :: 0 <= i < |r| && r[i].stockId == Some(k)
      {
        if k == id {
          assert r[|r| - 1].stockId == Some(k);
        } else {
          var i :| 0 <= i < |before| && before[i].stockId == Some(k);
          assert r[i] == before[i];
        }
      }
    }
    assert |store.Keys| == |store|;
  }

  /** Every stored count lies in `[0, MaxCount]`. */
  ghost predicate CountsInRange(store: Store) {
    forall k :: k in store ==> 0 <= store[k].count <= MaxCount
  }

  /** After `add_stock`, `get_stock` on the returned id reads back the fields just
      added, with count 0. A generated id is a UUID string, never empty. */
  lemma AddThenGet(store: Store, idOf: string -> string, group: string, detail: string, price: int)
    requires idOf(group + detail) != ""
    ensures var added := AddStock(store, idOf, group, detail, price);
            GetStock(added.store, idOf(group + detail)) == added.result
    ensures GetStock(AddStock(store, idOf, group, detail, price).store, idOf(group + detail))
            == Success(Stock(Some(detail), Some(group), Some(idOf(group + detail)), 0, Some(price)))
  {
  }

  /** `get_stock` on a document that is not stored fails. */
  lemma GetAbsentFails(store: Store, id: string)
    requires id !in store
    ensures GetStock(store, id) == Failure(NotFound)
  {
  }

  /** Incrementing a stock already at the ceiling by a positive amount raises and
      leaves the store as it was. */
  lemma IncrementAtCeilingFails(store: Store, id: string, delta: int)
    requires id != "" && id in store && store[id].count == MaxCount && delta >= 1
    ensures IncrementStock(store, id, delta) == Outcome(store, Failure(CountTooHigh))
  {
  }

  /** The comparison is strict: landing exactly on the ceiling succeeds. */
  lemma IncrementOntoCeilingSucceeds(store: Store, id: string)
    requires id != "" && id in store && store[id].count <= MaxCount
    ensures var r := IncrementStock(store, id, MaxCount - store[id].count);
            r.result.Success? && r.store[id].count == MaxCount
  {
  }

  /** Removing twice is removing once. */
  lemma RemoveIdempotent(store: Store, id: string)
    ensures RemoveStock(RemoveStock(store, id), id) == RemoveStock(store, id)
  {
  }

  /** Two additions whose `group + detail` agree land on one id: the second
      overwrites the first, resetting the count to 0, and leaves a single record. */
  lemma EqualConcatenationsCollide(store: Store, idOf: string -> string,
                                   g1: string, d1: string, p1: int,
                                   g2: string, d2: string, p2: int)
    requires g1 + d1 == g2 + d2
    ensures var first := AddStock(store, idOf, g1, d1, p1);
            var second := AddStock(first.store, idOf, g2, d2, p2);
            && first.result.value.stockId == second.result.value.stockId
            && second.store.Keys == first.store.Keys
            && second.store[idOf(g1 + d1)] == Record(g2, d2, 0, p2)
  {
  }

  /** The id depends on the concatenation only, so distinct pairs such as
      `("ab", "c")` and `("a", "bc")` share one document. */
  lemma DistinctPairsCanCollide(store: Store, idOf: string -> string)
    ensures var first := AddStock(store, idOf, "ab", "c", 100);
            var second := AddStock(first.store, idOf, "a", "bc", 200);
            && first.result.value.stockId == second.result.value.stockId
            && second.store[idOf("ab" + "c")] == Record("a", "bc", 0, 200)
  {
    assert "ab" + "c" == "a" + "bc";
  }

  /** For non-negative amounts every ledger operation keeps the counts in range:
      increment by rejecting, decrement by clamping. */
  lemma OperationsKeepCountsInRange(store: Store, idOf: string -> string,
                                    group: string, detail: string, price: int,
                                    id: string, delta: int)
    requires CountsInRange(store) && delta >= 0
    ensures CountsInRange(AddStock(store, idOf, group, detail, price).store)
    ensures CountsInRange(IncrementStock(store, id, delta).store)
    ensures CountsInRange(DecreaseStock(store, id, delta).store)
    ensures CountsInRange(RemoveStock(store, id))
  {
  }

  /** Neither operation checks the sign of its amount: a negative increment goes
      below zero and a negative decrement goes past the ceiling, both without
      raising. */
  lemma NegativeAmountsEscapeTheRange()
    ensures var store := map["x" := Record("g", "d", 0, 1)];
            var r := IncrementStock(store, "x", -1);
            r.result.Success? && r.store["x"].count == -1
    ensures var store := map["x" := Record("g", "d", MaxCount, 1)];
            var r := DecreaseStock(store, "x", -1);
            r.result.Success? && r.store["x"].count == MaxCount + 1
  {
  }

  /** Add a priced item, increment by 5, decrement by 8: 0, 5, 0 (clamped, no
      error). From 0, adding the whole ceiling is accepted, because the check is
      strict, while adding one more than the ceiling raises and leaves the count
      at 0. */
  lemma Scenario(store: Store, idOf: string -> string)
    requires idOf("drink" + "cola") != ""
    ensures var x := idOf("drink" + "cola");
            var added := AddStock(store, idOf, "drink", "cola", 150);
            var up := IncrementStock(added.store, x, 5);
            var down := DecreaseStock(up.store, x, 8);
            var full := IncrementStock(down.store, x, MaxCount);
            var over := IncrementStock(down.store, x, MaxCount + 1);
            && added.result.value.count == 0
            && up.result.Success? && up.result.value.count == 5
            && down.result.Success? && down.result.value.count == 0
            && full.result.Success? && full.result.value.count == MaxCount
            && over == Outcome(down.store, Failure(CountTooHigh))
            && over.store[x].count == 0
  {
    var x := idOf("drink" + "cola");
    var added := AddStock(store, idOf, "drink", "cola", 150);
    assert added.store[x].count == 0;
    var up := IncrementStock(added.store, x, 5);
    assert up.store[x].count == 5;
    var down := DecreaseStock(up.store, x, 8);
    assert down.store[x].count == 0;
  }
}

=== FILE: sales.dfy ===
/**
  The sales aggregation of `calc_total_sales` in `main.py`: a dict from
  `'{group} ({detail})'` to `count * price`, and the total of its values,
  inserted under `'total_sales'` and excluded again from the per-item listing.
*/
module Sales {
  import opened Fallible
  import opened Stocks

  /** A Python dict from string to int: its entries in insertion order. */
  type Dict = seq<(string, int)>

  /** The key under which the total is inserted. */
  const TotalKey: string := "total_sales"

  function Keys(d: Dict): set<string> {
    if d == [] then {} else {d[0].0} + Keys(d[1..])
  }

  ghost predicate DistinctKeys(d: Dict) {
    d == [] || (d[0].0 !in Keys(d[1..]) && DistinctKeys(d[1..]))
  }

  /** `d.get(k)`. */
  function Lookup(d: Dict, k: string): (r: Option<int>)
    ensures r.Some? <==> k in Keys(d)
  {
    if d == [] then None
    else if d[0].0 == k then Some(d[0].1)
    else Lookup(d[1..], k)
  }

  /** `d[k] = v`: afterwards `k` maps to `v` and every other key to what it did. */
  function Put(d: Dict, k: string, v: int): (r: Dict)
    ensures Lookup(r, k) == Some(v)
    ensures forall k' :: k' != k ==> Lookup(r, k') == Lookup(d, k')
    ensures Keys(r) == Keys(d) + {k}
  {
    if d == [] then [(k, v)]
    else if d[0].0 == k then
      var r := [(k, v)] + d[1..];
      assert r[1..] == d[1..];
      r
    else
      var r := [d[0]] + Put(d[1..], k, v);
      assert r[1..] == Put(d[1..], k, v);
      r
  }

  /** Python dicts keep insertion order: a key already present keeps its place,
      a new key is appended, and keys stay distinct. */
  lemma {:induction false} PutKeepsOrder(d: Dict, k: string, v: int)
    ensures |Put(d, k, v)| == if k in Keys(d) then |d| else |d| + 1
    ensures forall i :: 0 <= i < |d| ==> Put(d, k, v)[i].0 == d[i].0
    ensures k !in Keys(d) ==> Put(d, k, v) == d + [(k, v)]
    ensures DistinctKeys(d) ==> DistinctKeys(Put(d, k, v))
  {
    if d != [] && d[0].0 != k {
      PutKeepsOrder(d[1..], k, v);
      var r := Put(d, k, v);
      assert r == [d[0]] + Put(d[1..], k, v);
      assert r[1..] == Put(d[1..], k, v);
      if k !in Keys(d) {
        assert d == [d[0]] + d[1..];
        assert r == [d[0]] + (d[1..] + [(k, v)]);
      }
    } else if d != [] {
      assert Put(d, k, v)[1..] == d[1..];
    }
  }

  /** The dict key of one stock: the f-string `'{group} ({detail})'`. */
  function SalesKey(s: Stock): (k: string)
    ensures |k| == |Show(s.group)| + |Show(s.detail)| + 3 && k[|k| - 1] == ')'
  {
    Show(s.group) + " (" + Show(s.detail) + ")"
  }

  /** No per-item key can be the total's key: the former end in `)`. */
  lemma SalesKeyIsNotTotalKey(s: Stock)
    ensures SalesKey(s) != TotalKey
  {
    var k := SalesKey(s);
    assert k[|k| - 1] == ')';
    assert TotalKey[|TotalKey| - 1] == 's';
  }

  /** No later stock in `stocks` has the same key as `stocks[i]`. */
  ghost predicate LastWithKey(stocks: seq<Stock>, i: int)
    requires 0 <= i < |stocks|
  {
    forall j :: i < j < |stocks| ==> SalesKey(stocks[j]) != SalesKey(stocks[i])
  }

  /** The assignments `d[k] = v` of `entries`, one after another, into an empty dict. */
  function Assign(entries: Dict): (r: Dict)
    ensures Keys(r) == set i | 0 <= i < |entries| :: entries[i].0
    ensures DistinctKeys(r)
  {
    if entries == [] then []
    else
      var init := entries[..|entries| - 1];
      var e := entries[|entries| - 1];
      PutKeepsOrder(Assign(init), e.0, e.1);
      assert (set i | 0 <= i < |entries| :: entries[i].0)
          == (set i | 0 <= i < |init| :: init[i].0) + {e.0};
      Put(Assign(init), e.0, e.1)
  }

  /** A key holds the value of the last entry that assigned it. */
  lemma {:induction false} AssignKeepsLast(entries: Dict, i: int)
    requires 0 <= i < |entries|
    requires forall j :: i < j < |entries| ==> entries[j].0 != entries[i].0
    ensures Lookup(Assign(entries), entries[i].0) == Some(entries[i].1)
  {
    var init := entries[..|entries| - 1];
    if i < |entries| - 1 {
      AssignKeepsLast(init, i);
    }
  }

  /** The entry one stock assigns: its key, and `count * price`. */
  function Entry(s: Stock): (string, int)
    requires s.price.Some?
  {
    (SalesKey(s), s.count * s.price.value)
  }

  /** The entries of `stocks`, one per stock, in order. */
  function Entries(stocks: seq<Stock>): (d: Dict)
    requires forall i :: 0 <= i < |stocks| ==> stocks[i].price.Some?
    ensures |d| == |stocks|
    ensures forall i :: 0 <= i < |stocks| ==> d[i] == Entry(stocks[i])
  {
    seq(|stocks|, i requires 0 <= i < |stocks| => Entry(stocks[i]))
  }

  /** The loop `sales[key] = stock.count * stock.price` over the stocks in order.
      `count * None` raises, so a stock without a price aborts the loop. */
  function Revenue(stocks: seq<Stock>): (r: Result<Dict, Fault>)
    ensures r.Failure? <==> exists i :: 0 <= i < |stocks| && stocks[i].price.None?
    ensures r.Success? ==> Keys(r.value) == set i | 0 <= i < |stocks| :: SalesKey(stocks[i])
    ensures r.Success? ==> DistinctKeys(r.value)
  {
    if exists i :: 0 <= i < |stocks| && stocks[i].price.None? then Failure(TypeError)
    else
      var entries := Entries(stocks);
      assert (set i | 0 <= i < |stocks| :: SalesKey(stocks[i]))
          == (set i | 0 <= i < |entries| :: entries[i].0) by {
        forall i | 0 <= i < |stocks| ensures entries[i].0 == SalesKey(stocks[i]) {}
      }
      Success(Assign(entries))
  }

  /** Each key holds the revenue of the last stock that produced it: a later
      stock with the same key replaces the earlier one's value. */
  lemma RevenueKeepsLast(stocks: seq<Stock>, i: int)
    requires forall j :: 0 <= j < |stocks| ==> stocks[j].price.Some?
    requires 0 <= i < |stocks| && LastWithKey(stocks, i)
    ensures Revenue(stocks).Success?
    ensures Lookup(Revenue(stocks).value, SalesKey(stocks[i])) == Some(stocks[i].count * stocks[i].price.value)
  {
    var entries := Entries(stocks);
    forall j | i < j < |entries| ensures entries[j].0 != entries[i].0 {
      assert entries[j].0 == SalesKey(stocks[j]);
    }
    AssignKeepsLast(entries, i);
    assert Revenue(stocks) == Success(Assign(entries));
  }

  /** `sum(sales.values())`. */
  function Sum(d: Dict): (r: int)
    ensures (forall i :: 0 <= i < |d| ==> d[i].1 >= 0) ==> r >= 0
    ensures (forall i :: 0 <= i < |d| ==> d[i].1 >= 0) ==> forall i :: 0 <= i < |d| ==> d[i].1 <= r
  {
    if d == [] then 0 else Sum(d[..|d| - 1]) + d[|d| - 1].1
  }

  /** The entries whose key is not the total's, in order: the per-item listing. */
  function Listing(d: Dict): (r: Dict)
    ensures |r| <= |d|
    ensures forall i :: 0 <= i < |r| ==> r[i].0 != TotalKey
  {
    if d == [] then []
    else (if d[0].0 == TotalKey then [] else [d[0]]) + Listing(d[1..])
  }

  /** The listing holds exactly the entries whose key is not the total's. */
  lemma {:induction false} ListingKeepsItems(d: Dict)
    ensures forall e :: e in Listing(d) <==> e in d && e.0 != TotalKey
  {
    if d != [] {
      ListingKeepsItems(d[1..]);
      assert d == [d[0]] + d[1..];
    }
  }

  /** What `calc_total_sales` reports: the per-item entries it lists and the total. */
  datatype Report = Report(items: Dict, total: int)

  /** `calc_total_sales`, apart from fetching the stocks and sending the message. */
  function CalcTotalSales(stocks: seq<Stock>): (r: Result<Report, Fault>)
    ensures r.Failure? <==> exists i :: 0 <= i < |stocks| && stocks[i].price.None?
    ensures r.Success? ==> r.value.items == Revenue(stocks).value
    ensures r.Success? ==> r.value.total == Sum(r.value.items)
  {
    match Revenue(stocks)
    case Failure(e) => Failure(e)
    case Success(sales) =>
      var total := Sum(sales);
      var full := Put(sales, TotalKey, total);
      ListingOfRevenue(stocks, sales);
      Success(Report(Listing(full), total))
  }

  lemma ListingOfRevenue(stocks: seq<Stock>, sales: Dict)
    requires Revenue(stocks) == Success(sales)
    ensures forall t :: Listing(Put(sales, TotalKey, t)) == sales
  {
    assert TotalKey !in Keys(sales) by {
      forall i | 0 <= i < |stocks| ensures SalesKey(stocks[i]) != TotalKey {
        SalesKeyIsNotTotalKey(stocks[i]);
      }
    }
    forall t ensures Listing(Put(sales, TotalKey, t)) == sales {
      PutKeepsOrder(sales, TotalKey, t);
      ListingAppend(sales, [(TotalKey, t)]);
      ListingKeepsOthers(sales);
      assert Listing([(TotalKey, t)]) == [];
    }
  }

  lemma {:induction false} ListingAppend(a: Dict, b: Dict)
    ensures Listing(a + b) == Listing(a) + Listing(b)
  {
    if a == [] {
      assert a + b == b;
    } else {
      assert (a + b)[1..] == a[1..] + b;
      ListingAppend(a[1..], b);
    }
  }

  lemma {:induction false} ListingKeepsOthers(d: Dict)
    requires TotalKey !in Keys(d)
    ensures Listing(d) == d
  {
    if d != [] {
      ListingKeepsOthers(d[1..]);
      assert d == [d[0]] + d[1..];
    }
  }

  /** The revenue of every stock added up, one term per stock. */
  function Gross(stocks: seq<Stock>): int
    requires forall i :: 0 <= i < |stocks| ==> stocks[i].price.Some?
  {
    if stocks == [] then 0
    else Gross(stocks[..|stocks| - 1]) + stocks[|stocks| - 1].count * stocks[|stocks| - 1].price.value
  }

  /** With pairwise distinct keys no assignment replaces another: the dict is
      the entries themselves. */
  lemma {:induction false} AssignDistinct(entries: Dict)
    requires forall i, j :: 0 <= i < j < |entries| ==> entries[i].0 != entries[j].0
    ensures Assign(entries) == entries
  {
    if entries != [] {
      var init := entries[..|entries| - 1];
      var e := entries[|entries| - 1];
      AssignDistinct(init);
      PutKeepsOrder(init, e.0, e.1);
      assert entries == init + [e];
    }
  }

  lemma {:induction false} SumOfEntries(stocks: seq<Stock>, entries: Dict)
    requires forall i :: 0 <= i < |stocks| ==> stocks[i].price.Some?
    requires |entries| == |stocks|
    requires forall i :: 0 <= i < |stocks| ==> entries[i] == Entry(stocks[i])
    ensures Sum(entries) == Gross(stocks)
  {
    if stocks != [] {
      var n := |stocks| - 1;
      SumOfEntries(stocks[..n], entries[..n]);
      assert Sum(entries) == Sum(entries[..n]) + entries[n].1;
      assert entries[n].1 == stocks[n].count * stocks[n].price.value;
    }
  }

  /** When no two stocks share a key, the reported total is the revenue of
      every stock added up. */
  lemma TotalIsGrossWhenKeysDistinct(stocks: seq<Stock>)
    requires forall i :: 0 <= i < |stocks| ==> stocks[i].price.Some?
    requires forall i, j :: 0 <= i < j < |stocks| ==> SalesKey(stocks[i]) != SalesKey(stocks[j])
    ensures CalcTotalSales(stocks).Success?
    ensures CalcTotalSales(stocks).value.total == Gross(stocks)
  {
    var entries := Entries(stocks);
    AssignDistinct(entries);
    SumOfEntries(stocks, entries);
  }

  /** Two stocks of different documents whose keys collide: group `"g (a)"`
      with detail `"b"`, and group `"g"` with detail `"a) (b"`, both render as
      `"g (a) (b)"`. */
  const CollidingFirst := Stock(Some("b"), Some("g (a)"), Some("id1"), 2, Some(10))
  const CollidingSecond := Stock(Some("a) (b"), Some("g"), Some("id2"), 1, Some(5))

  /** The later stock's assignment replaces the earlier one's value. */
  lemma CollidingKeysShareOneEntry()
    ensures SalesKey(CollidingFirst) == SalesKey(CollidingSecond)
    ensures Revenue([CollidingFirst, CollidingSecond]) == Success([(SalesKey(CollidingSecond), 5)])
  {
    var key := SalesKey(CollidingSecond);
    assert SalesKey(CollidingFirst) == "g (a) (b)" == key;
    var stocks := [CollidingFirst, CollidingSecond];
    var entries := Entries(stocks);
    assert entries == [(key, 20), (key, 5)];
    assert entries[..1] == [(key, 20)];
    assert [(key, 20)][..0] == [];
    assert Assign([(key, 20)]) == [(key, 20)];
    assert Assign(entries) == Put([(key, 20)], key, 5) == [(key, 5)];
  }

  /** Keys collide across distinct documents, so only the later stock's
      revenue reaches the total. */
  lemma CollidingKeysDropEarlierRevenue()
    ensures var first := CollidingFirst;
            var second := CollidingSecond;
            && SalesKey(first) == SalesKey(second)
            && CalcTotalSales([first, second]).Success?
            && CalcTotalSales([first, second]).value.items == [(SalesKey(second), 5)]
            && CalcTotalSales([first, second]).value.total == 5
            && Gross([first, second]) == 25
  {
    CollidingKeysShareOneEntry();
    var key := SalesKey(CollidingSecond);
    assert [(key, 5)][..0] == [];
    assert Sum([(key, 5)]) == 5;
    var stocks := [CollidingFirst, CollidingSecond];
    assert stocks[..1] == [CollidingFirst];
    assert [CollidingFirst][..0] == [];
    assert Gross([CollidingFirst]) == 20;
    assert Gross(stocks) == Gross([CollidingFirst]) + 5;
  }
}

=== FILE: singleton.dfy ===
/**
  The `Singleton` metaclass of `utils.py`: a cache from class to instance. The
  first construction of a class that succeeds stores the instance it builds;
  every later construction returns the stored one and ignores its own
  arguments. A constructor that raises stores nothing, so the next construction
  builds again.
*/
module Singleton {
  import opened Fallible

  /** The metaclass's `_instances` dict. */
  type Instances<C, I> = map<C, I>

  /** The cache after one construction, and what that construction returns or raises. */
  datatype Constructed<C, I, E> = Constructed(instances: Instances<C, I>, instance: Result<I, E>)

  /** `Singleton.__call__(cls, *args)`. `built` stands for what
      `super().__call__(*args)` would return or raise; it is only used when
      `cls` has no instance. The assignment evaluates its right side first, so a
      raising constructor leaves `_instances` as it was. */
  function Call<C, I, E>(instances: Instances<C, I>, cls: C, built: Result<I, E>): (r: Constructed<C, I, E>)
    ensures r.instance.Success? <==> cls in instances || built.Success?
    ensures r.instance.Success? ==> cls in r.instances && r.instance.value == r.instances[cls]
    ensures r.instance.Success? ==> r.instances.Keys == instances.Keys + {cls}
    ensures r.instance.Failure? ==> r.instances == instances && r.instance == built
    ensures forall c :: c in instances ==> c in r.instances && r.instances[c] == instances[c]
    ensures cls !in instances ==> r.instance == built
  {
    if cls in instances then Constructed(instances, Success(instances[cls]))
    else if built.Success? then Constructed(instances[cls := built.value], built)
    else Constructed(instances, built)
  }

  /** Constructs `cls` once per outcome in `builds`, in order, and returns what
      each construction returned or raised. */
  function CallEach<C, I, E>(instances: Instances<C, I>, cls: C, builds: seq<Result<I, E>>): (r: seq<Result<I, E>>)
    ensures |r| == |builds|
    decreases |builds|
  {
    if builds == [] then []
    else
      var first := Call(instances, cls, builds[0]);
      [first.instance] + CallEach(first.instances, cls, builds[1..])
  }

  /** While a class has no instance, each construction raises what its
      constructor raises, until the first one that succeeds; from then on every
      construction returns the instance that one built. */
  lemma {:induction false} AllCallsReturnFirst<C, I, E>(instances: Instances<C, I>, cls: C, builds: seq<Result<I, E>>, k: int)
    requires cls !in instances
    requires 0 <= k < |builds| && builds[k].Success?
    requires forall j :: 0 <= j < k ==> builds[j].Failure?
    ensures forall i :: 0 <= i < k ==> CallEach(instances, cls, builds)[i] == builds[i]
    ensures forall i :: k <= i < |builds| ==> CallEach(instances, cls, builds)[i] == builds[k]
    decreases k
  {
    var first := Call(instances, cls, builds[0]);
    var rest := CallEach(first.instances, cls, builds[1..]);
    assert CallEach(instances, cls, builds) == [first.instance] + rest;
    if k == 0 {
      CachedCallsReturnCached(first.instances, cls, builds[1..]);
    } else {
      assert first.instances == instances;
      AllCallsReturnFirst(instances, cls, builds[1..], k - 1);
    }
  }

  lemma {:induction false} CachedCallsReturnCached<C, I, E>(instances: Instances<C, I>, cls: C, builds: seq<Result<I, E>>)
    requires cls in instances
    ensures forall i :: 0 <= i < |builds| ==> CallEach(instances, cls, builds)[i] == Success(instances[cls])
    decreases |builds|
  {
    if builds != [] {
      CachedCallsReturnCached(instances, cls, builds[1..]);
    }
  }

  /** Constructions of any classes, in order: the cache they leave behind. */
  function Run<C, I, E>(instances: Instances<C, I>, calls: seq<(C, Result<I, E>)>): Instances<C, I>
    decreases |calls|
  {
    if calls == [] then instances
    else Run(Call(instances, calls[0].0, calls[0].1).instances, calls[1..])
  }

  /** An instance once cached is never replaced or dropped. */
  lemma {:induction false} RunKeepsCached<C, I, E>(instances: Instances<C, I>, calls: seq<(C, Result<I, E>)>)
    ensures instances.Keys <= Run(instances, calls).Keys
    ensures forall c :: c in instances ==> Run(instances, calls)[c] == instances[c]
    decreases |calls|
  {
    if calls != [] {
      RunKeepsCached(Call(instances, calls[0].0, calls[0].1).instances, calls[1..]);
    }
  }

  /** Only successful constructions add to the cache: every cached class either
      was cached before or has a successful construction among `calls`. */
  lemma {:induction false} RunCachesOnlySuccesses<C, I, E>(instances: Instances<C, I>, calls: seq<(C, Result<I, E>)>)
    ensures forall c :: c in Run(instances, calls) ==>
      c in instances || exists i :: 0 <= i < |calls| && calls[i].0 == c && calls[i].1.Success?
    decreases |calls|
  {
    if calls != [] {
      var next := Call(instances, calls[0].0, calls[0].1).instances;
      RunCachesOnlySuccesses(next, calls[1..]);
      forall c | c in Run(instances, calls)
        ensures c in instances || exists i :: 0 <= i < |calls| && calls[i].0 == c && calls[i].1.Success?
      {
        if c !in instances {
          if c in next {
            assert calls[0].0 == c && calls[0].1.Success?;
          } else {
            var i :| 0 <= i < |calls[1..]| && calls[1..][i].0 == c && calls[1..][i].1.Success?;
            assert calls[i + 1] == calls[1..][i];
          }
        }
      }
    }
  }
}

=== FILE: sorting.dfy ===
/**
  A stable sort by key, standing for Python's `sorted(xs, key=...)` together
  with the orders the stock sorts use on their keys.
*/
module Sorting {

  /** `less` is a strict total order: irreflexive, transitive and connected. */
  ghost predicate StrictTotalOrder<K(!new)>(less: (K, K) -> bool) {
    && (forall a :: !less(a, a))
    && (forall a, b, c :: less(a, b) && less(b, c) ==> less(a, c))
    && (forall a, b :: a != b ==> less(a, b) || less(b, a))
  }

  /** No element is strictly before an element that precedes it. */
  ghost predicate SortedBy<T, K>(s: seq<T>, key: T -> K, less: (K, K) -> bool) {
    forall i, j :: 0 <= i < j < |s| ==> !less(key(s[j]), key(s[i]))
  }

  /** The elements of `s` whose key is `k`, in the order of `s`. */
  function WithKey<T, K(==)>(s: seq<T>, key: T -> K, k: K): (r: seq<T>)
    ensures |r| <= |s|
    ensures forall i :: 0 <= i < |r| ==> key(r[i]) == k
  {
    if s == [] then []
    else (if key(s[0]) == k then [s[0]] else []) + WithKey(s[1..], key, k)
  }

  /** Stable with respect to `s`: elements with equal keys keep their order. */
  ghost predicate StableFrom<T, K(!new)>(r: seq<T>, s: seq<T>, key: T -> K) {
    forall k :: WithKey(r, key, k) == WithKey(s, key, k)
  }

  /** Places `x` after every element whose key is strictly before its own and
      before the rest; `x` comes earlier in the input than everything in `t`. */
  function Insert<T, K>(x: T, t: seq<T>, key: T -> K, less: (K, K) -> bool): (r: seq<T>)
    ensures multiset(r) == multiset(t) + multiset{x}
  {
    if t == [] || !less(key(t[0]), key(x)) then [x] + t
    else
      assert t == [t[0]] + t[1..];
      [t[0]] + Insert(x, t[1..], key, less)
  }

  lemma {:induction false} InsertSorted<T, K(!new)>(x: T, t: seq<T>, key: T -> K, less: (K, K) -> bool)
    requires StrictTotalOrder(less)
    requires SortedBy(t, key, less)
    ensures SortedBy(Insert(x, t, key, less), key, less)
  {
    var r := Insert(x, t, key, less);
    if t == [] || !less(key(t[0]), key(x)) {
      assert r == [x] + t;
      forall j | 0 < j < |r|
        ensures !less(key(r[j]), key(x))
      {
        assert r[j] == t[j - 1];
        if j > 1 {
          assert !less(key(t[j - 1]), key(t[0]));
        }
      }
    } else {
      var rest := Insert(x, t[1..], key, less);
      InsertSorted(x, t[1..], key, less);
      assert r == [t[0]] + rest;
      assert !less(key(x), key(t[0]));
      forall j | 0 <= j < |rest|
        ensures !less(key(rest[j]), key(t[0]))
      {
        assert rest[j] in multiset(rest);
        if rest[j] != x {
          assert rest[j] in multiset(t[1..]);
          var m :| 0 <= m < |t[1..]| && t[1..][m] == rest[j];
          assert t[m + 1] == rest[j];
        }
      }
    }
  }

  lemma {:induction false} InsertWithKey<T, K(!new)>(x: T, t: seq<T>, key: T -> K, less: (K, K) -> bool, k: K)
    requires StrictTotalOrder(less)
    ensures WithKey(Insert(x, t, key, less), key, k) == (if key(x) == k then [x] else []) + WithKey(t, key, k)
  {
    if t == [] || !less(key(t[0]), key(x)) {
      assert ([x] + t)[1..] == t;
    } else {
      InsertWithKey(x, t[1..], key, less, k);
      var r := [t[0]] + Insert(x, t[1..], key, less);
      assert r[1..] == Insert(x, t[1..], key, less);
      assert key(t[0]) != key(x);
    }
  }

  /** Insertion sort: the first element is inserted into the sorted rest. */
  function SortBy<T, K(!new)>(s: seq<T>, key: T -> K, less: (K, K) -> bool): (r: seq<T>)
    requires StrictTotalOrder(less)
    ensures multiset(r) == multiset(s)
    ensures SortedBy(r, key, less)
    ensures StableFrom(r, s, key)
  {
    if s == [] then []
    else
      var rest := SortBy(s[1..], key, less);
      InsertSorted(s[0], rest, key, less);
      assert s == [s[0]] + s[1..];
      assert StableFrom(Insert(s[0], rest, key, less), s, key) by {
        forall k {
          InsertWithKey(s[0], rest, key, less, k);
        }
      }
      Insert(s[0], rest, key, less)
  }

  /** Sorting an already sorted sequence leaves it as it is. */
  lemma {:induction false} SortSortedIsIdentity<T, K(!new)>(s: seq<T>, key: T -> K, less: (K, K) -> bool)
    requires StrictTotalOrder(less)
    requires SortedBy(s, key, less)
    ensures SortBy(s, key, less) == s
  {
    if s != [] {
      SortSortedIsIdentity(s[1..], key, less);
      assert s == [s[0]] + s[1..];
    }
  }

  /** Sorting twice gives what sorting once gives. */
  lemma SortIdempotent<T, K(!new)>(s: seq<T>, key: T -> K, less: (K, K) -> bool)
    requires StrictTotalOrder(less)
    ensures SortBy(SortBy(s, key, less), key, less) == SortBy(s, key, less)
  {
    SortSortedIsIdentity(SortBy(s, key, less), key, less);
  }

  /** Python's `<` on strings: code point by code point, a proper prefix first. */
  predicate StrLess(a: string, b: string)
  {
    if a == [] then b != []
    else if b == [] then false
    else if a[0] != b[0] then a[0] < b[0]
    else StrLess(a[1..], b[1..])
  }

  lemma {:induction false} StrLessIrreflexive(a: string)
    ensures !StrLess(a, a)
  {
    if a != [] {
      StrLessIrreflexive(a[1..]);
    }
  }

  lemma {:induction false} StrLessTransitive(a: string, b: string, c: string)
    requires StrLess(a, b) && StrLess(b, c)
    ensures StrLess(a, c)
  {
    if a != [] && b != [] && c != [] && a[0] == b[0] && b[0] == c[0] {
      StrLessTransitive(a[1..], b[1..], c[1..]);
    }
  }

  lemma {:induction false} StrLessConnected(a: string, b: string)
    requires a != b
    ensures StrLess(a, b) || StrLess(b, a)
  {
    if a != [] && b != [] && a[0] == b[0] {
      assert a == [a[0]] + a[1..] && b == [b[0]] + b[1..];
      StrLessConnected(a[1..], b[1..]);
    }
  }

  /** Python's string order is a strict total order. */
  lemma StrLessIsStrictTotalOrder()
    ensures StrictTotalOrder(StrLess)
  {
    forall a ensures !StrLess(a, a) {
      StrLessIrreflexive(a);
    }
    forall a, b, c | StrLess(a, b) && StrLess(b, c) ensures StrLess(a, c) {
      StrLessTransitive(a, b, c);
    }
    forall a, b | a != b ensures StrLess(a, b) || StrLess(b, a) {
      StrLessConnected(a, b);
    }
  }
}

=== FILE: stock_sorts.dfy ===
/**
  The three orderings of `main.py`: by count and by price, both descending,
  and by group, ascending. Each is `sorted` with a key, which is stable even
  with `reverse=True`.
*/
module StockSorts {
  import opened Fallible
  import opened Stocks
  import opened Sorting

  function CountOf(s: Stock): int { s.count }
  function PriceOf(s: Stock): Option<int> { s.price }
  function GroupOf(s: Stock): Option<string> { s.group }

  /** Descending count: a higher count comes first. */
  predicate HigherCount(a: int, b: int) { a > b }

  /** Descending price. Python cannot compare `None`; placing it first only
      makes the order total, and is never used on a sort that succeeds with a
      `None` price among two or more stocks. */
  predicate HigherPrice(a: Option<int>, b: Option<int>) {
    (a.None? && b.Some?) || (a.Some? && b.Some? && a.value > b.value)
  }

  /** Ascending group, with the same `None`-first completion as `HigherPrice`. */
  predicate GroupBefore(a: Option<string>, b: Option<string>) {
    (a.None? && b.Some?) || (a.Some? && b.Some? && StrLess(a.value, b.value))
  }

  lemma HigherCountIsTotal()
    ensures StrictTotalOrder(HigherCount)
  {
  }

  lemma HigherPriceIsTotal()
    ensures StrictTotalOrder(HigherPrice)
  {
  }

  lemma GroupBeforeIsTotal()
    ensures StrictTotalOrder(GroupBefore)
  {
    StrLessIsStrictTotalOrder();
    forall a, b, c | GroupBefore(a, b) && GroupBefore(b, c)
      ensures GroupBefore(a, c)
    {
      if a.Some? {
        assert StrLess(a.value, b.value) && StrLess(b.value, c.value);
      }
    }
    forall a, b | a != b
      ensures GroupBefore(a, b) || GroupBefore(b, a)
    {
      if a.Some? && b.Some? {
        assert a.value != b.value;
      }
    }
  }

  /** Sorting two or more stocks compares every one of them, and Python raises
      `TypeError` on `<` with a `None` operand. */
  predicate Incomparable<K>(stocks: seq<Stock>, key: Stock -> Option<K>) {
    |stocks| >= 2 && exists i :: 0 <= i < |stocks| && key(stocks[i]).None?
  }

  /** `sort_stocks_by_count`. */
  function SortStocksByCount(stocks: seq<Stock>): (r: seq<Stock>)
    ensures multiset(r) == multiset(stocks)
    ensures forall i, j :: 0 <= i < j < |r| ==> r[i].count >= r[j].count
    ensures forall c :: WithKey(r, CountOf, c) == WithKey(stocks, CountOf, c)
  {
    HigherCountIsTotal();
    SortBy(stocks, CountOf, HigherCount)
  }

  /** `sort_stocks_by_price`. */
  function SortStocksByPrice(stocks: seq<Stock>): (r: Result<seq<Stock>, Fault>)
    ensures r.Failure? <==> Incomparable(stocks, PriceOf)
    ensures r.Success? ==> multiset(r.value) == multiset(stocks)
    ensures r.Success? ==> forall i, j :: 0 <= i < j < |r.value| ==>
              r.value[i].price.Some? && r.value[j].price.Some?
              && r.value[i].price.value >= r.value[j].price.value
    ensures r.Success? ==> forall p :: WithKey(r.value, PriceOf, p) == WithKey(stocks, PriceOf, p)
  {
    if Incomparable(stocks, PriceOf) then Failure(TypeError)
    else
      HigherPriceIsTotal();
      var sorted := SortBy(stocks, PriceOf, HigherPrice);
      assert forall i :: 0 <= i < |sorted| ==> |sorted| < 2 || sorted[i].price.Some? by {
        forall i | 0 <= i < |sorted| && |sorted| >= 2 ensures sorted[i].price.Some? {
          assert sorted[i] in multiset(stocks);
        }
      }
      Success(sorted)
  }

  /** `sort_stocks_by_group`. */
  function SortStocksByGroup(stocks: seq<Stock>): (r: Result<seq<Stock>, Fault>)
    ensures r.Failure? <==> Incomparable(stocks, GroupOf)
    ensures r.Success? ==> multiset(r.value) == multiset(stocks)
    ensures r.Success? ==> forall i, j :: 0 <= i < j < |r.value| ==>
              r.value[i].group.Some? && r.value[j].group.Some?
              && !StrLess(r.value[j].group.value, r.value[i].group.value)
    ensures r.Success? ==> forall g :: WithKey(r.value, GroupOf, g) == WithKey(stocks, GroupOf, g)
  {
    if Incomparable(stocks, GroupOf) then Failure(TypeError)
    else
      GroupBeforeIsTotal();
      var sorted := SortBy(stocks, GroupOf, GroupBefore);
      assert forall i :: 0 <= i < |sorted| ==> |sorted| < 2 || sorted[i].group.Some? by {
        forall i | 0 <= i < |sorted| && |sorted| >= 2 ensures sorted[i].group.Some? {
          assert sorted[i] in multiset(stocks);
        }
      }
      Success(sorted)
  }
}

=== FILE: stocks.dfy ===
/** The `Stock` record of `utils.py`, and the way Python formats its optional fields. */
module Stocks {
  import opened Fallible

  /** The `Stock` dataclass. Every field but `count` defaults to Python's `None`. */
  datatype Stock = Stock(
    detail: Option<string>,
    group: Option<string>,
    stockId: Option<string>,
    count: int,
    price: Option<int>)

  /** `Stock()` with no arguments. */
  function DefaultStock(): (s: Stock)
    ensures s.count == 0
    ensures s.detail == None && s.group == None && s.stockId == None && s.price == None
  {
    Stock(None, None, None, 0, None)
  }

  /** The `TypeError` Python raises when an arithmetic or ordering operand is `None`. */
  datatype Fault = TypeError

  /** A stock in which every optional field is present, as the ledger builds them. */
  predicate Complete(s: Stock) {
    s.detail.Some? && s.group.Some? && s.stockId.Some? && s.price.Some?
  }

  /** An optional string as an f-string renders it: the string itself, or `"None"`. */
  function Show(o: Option<string>): (r: string)
    ensures o.Some? ==> r == o.value
    ensures o.None? ==> r == "None"
  {
    if o.Some? then o.value else "None"
  }
}

=== FILE: translator.dfy ===
/**
  `CommandsTranslator.translate` of `utils.py`: a two-level table lookup from
  locale and message to the localized command name or description.
*/
module Translator {
  import opened Fallible

  const Ja: map<string, string> := map[
    "ping" := "ping",
    "add_stock" := "商品の追加",
    "remove_stock" := "商品の削除",
    "get_all_stocks" := "全商品の取得",
    "search_stock" := "商品の検索",
    "sort_by_group" := "グループでソート",
    "sort_by_count" := "個数でソート",
    "sort_by_price" := "価格でソート",
    "calc_total_sales" := "売上の計算",
    "Ping the bot." := "ボットにPingを送信します。",
    "Add a new stock to the stock list." := "商品リストに新しい商品を追加します。",
    "Remove a stock from the stock list." := "商品リストから商品を削除します。",
    "Get all stocks in the stock list." := "商品リスト内の全商品を取得します。",
    "Search a stock from the stock list and return messge link." := "商品リストから商品を検索し、メッセージリンクを返します。",
    "Sort all stocks by group." := "全商品をグループでソートします。",
    "Sort all stocks by count." := "全商品を個数でソートします。",
    "Sort all stocks by price." := "全商品を価格でソートします。",
    "Calculate total sales." := "売上を計算します。"
  ]

  const EnUs: map<string, string> := map[
    "ping" := "ping",
    "add_stock" := "add_stock",
    "remove_stock" := "remove_stock",
    "get_all_stocks" := "get_all_stocks",
    "search_stock" := "search_stock",
    "sort_by_group" := "sort_by_group",
    "sort_by_count" := "sort_by_count",
    "sort_by_price" := "sort_by_price",
    "calc_total_sales" := "calc_total_sales",
    "Ping the bot." := "Ping the bot.",
    "Add a new stock to the stock list." := "Add a new stock to the stock list.",
    "Remove a stock from the stock list." := "Remove a stock from the stock list.",
    "Get all stocks in the stock list." := "Get all stocks in the stock list.",
    "Search a stock from the stock list and return messge link." := "Search a stock from the stock list and return messge link.",
    "Sort all stocks by group." := "Sort all stocks by group.",
    "Sort all stocks by count." := "Sort all stocks by count.",
    "Sort all stocks by price." := "Sort all stocks by price.",
    "Calculate total sales." := "Calculate total sales."
  ]

  /** `command_names`: one table per locale. */
  const CommandNames: map<string, map<string, string>> := map["ja" := Ja, "en-US" := EnUs]

  /** `translate(string, locale, context)`; the context is unused. */
  function Translate(locale: string, message: string): (r: Option<string>)
    ensures r.Some? <==> locale in CommandNames && message in CommandNames[locale]
    ensures r.Some? ==> r.value == CommandNames[locale][message]
  {
    if locale in CommandNames && message in CommandNames[locale] then Some(CommandNames[locale][message])
    else None
  }

  /** Only `ja` and `en-US` have tables; every other locale gets `None`. */
  lemma OtherLocalesUntranslated(locale: string, message: string)
    requires locale != "ja" && locale != "en-US"
    ensures Translate(locale, message) == None
  {
  }

  /** The English table is the identity on its keys. */
  lemma EnglishIsIdentity(message: string)
    requires message in EnUs
    ensures Translate("en-US", message) == Some(message)
  {
  }

  /** Both tables translate the same set of messages. */
  lemma TablesShareKeys()
    ensures Ja.Keys == EnUs.Keys
  {
  }

  /** The descriptions the command registrations in `main.py` pass to the
      translator, in registration order. */
  const RegisteredDescriptions: seq<string> := [
    "Ping the bot.",
    "Add a new stock to the stock list.",
    "Remove a stock from the stock list.",
    "Get all stocks in the stock list.",
    "Calculate total sales.",
    "Sort stocks by count.",
    "Sort stocks by price.",
    "Sort stocks by group."
  ]

  /** The three sort commands register descriptions that are not keys of any
      table (the tables say "Sort all stocks by ..."), so they are never
      translated, while the other descriptions are. */
  lemma SortDescriptionsUntranslated()
    ensures forall i :: 0 <= i < 5 ==> Translate("ja", RegisteredDescriptions[i]).Some?
    ensures forall i :: 5 <= i < |RegisteredDescriptions| ==>
              forall locale :: Translate(locale, RegisteredDescriptions[i]) == None
  {
    forall i | 0 <= i < 5 ensures RegisteredDescriptions[i] in Ja {
      if i == 0 { assert RegisteredDescriptions[i] == "Ping the bot."; }
      else if i == 1 { assert RegisteredDescriptions[i] == "Add a new stock to the stock list."; }
      else if i == 2 { assert RegisteredDescriptions[i] == "Remove a stock from the stock list."; }
      else if i == 3 { assert RegisteredDescriptions[i] == "Get all stocks in the stock list."; }
      else { assert RegisteredDescriptions[i] == "Calculate total sales."; }
    }
    forall i | 5 <= i < |RegisteredDescriptions|
      ensures RegisteredDescriptions[i] !in Ja && RegisteredDescriptions[i] !in EnUs
    {
      assert RegisteredDescriptions[i] in {"Sort stocks by count.", "Sort stocks by price.", "Sort stocks by group."};
    }
  }

  /** The descriptions the sort commands evidently intend, as the tables spell them. */
  const IntendedDescriptions: seq<string> := RegisteredDescriptions[..5] + [
    "Sort all stocks by count.",
    "Sort all stocks by price.",
    "Sort all stocks by group."
  ]

  /** With the intended descriptions every command description is translated
      in both locales, and into itself in English. */
  lemma IntendedDescriptionsTranslate()
    ensures forall i :: 0 <= i < |IntendedDescriptions| ==>
              && Translate("ja", IntendedDescriptions[i]).Some?
              && Translate("en-US", IntendedDescriptions[i]) == Some(IntendedDescriptions[i])
  {
  }
}
